=== FILE: README.md ===
# Placy authentication, token handling and tag cache — a Dafny model

This project models the credential-and-token core of the Placy backend and
one small cache-aside routine of its community service, and proves
properties of that model with Dafny.

- `AuthController` (auth.py) covers the current FastAPI controller:
  - signup hashes the password, stores the account, then logs in;
  - login is lookup, then PBKDF2 check, then a signed access/refresh pair;
  - forgot generates a six-digit code, stores it and queues one email;
  - reset looks the code up, refuses it strictly after its expiry, then stores the new hash;
  - refresh checks the `Authorization` header, decodes the token and re-signs its payload.
- `Router` (routes.py) covers the older route handlers:
  - the "hash" is the password followed by a six-digit salt;
  - a configuration without `SECRET_KEY` makes token generation yield `("", "")`, which login turns into a 500;
  - reset always answers 501.
- `IsAuth` (isAuth.ts) covers the Express middleware. It takes the token after a `Bearer` (section 2.1 of RFC 6750) or `Token` scheme, refuses a missing token with 401 before verifying, and hands verifier errors to `next`.
- `TagRepository` and `TagService` cover the tag collection and its cache: create, append to the cache, overwrite the cache, read through the cache, and the `{_id, tag}` projection.

Each route is a pure function from the request, the stores, the clock and
the external collaborators' answers to the response and the stores
afterwards. The shared modules are:

- `Http`: the response envelope (`ErrorResponse`, `AuthResponse`, `RefreshResponse`, and `Unhandled` for an exception that escapes a handler, which the framework answers with 500).
- `Digits`: the six-digit strings built from `random.randint(0, 9)` draws.
- `Text`: Python's `str.split()` and JavaScript's `split(' ')`, with round-trip lemmas.
- `Jwt`: the JWT codec as a pair of function values. The predicate `Jwt.Sound` states the library facts the flows use: a signed token is a non-empty string without whitespace, and the key that signed it decodes it to its claims before `exp` and reports expiry from `exp` on (section 4.1.4 of RFC 7519).
- `AuthController.SoundHasher`: the same kind of predicate for PBKDF2. Hashing accepts exactly the secrets of at most 4096 characters, passlib's default `MAX_PASSWORD_SIZE`. Verifying a longer secret raises. For a secret within the limit, verification recognises every hash the hasher produced and accepts exactly the password that was hashed. Where passlib raises a `ValueError` (`PasswordSizeError`, or `InvalidHashError` for a stored string it does not recognise), the model writes `None`; nothing in the handlers catches it.

Modelling decisions:

- The clock is an integer `now` in seconds.
- Random digits are an explicit `draws` argument, and PBKDF2's internal salt is a `salt` argument.
- The repositories' code is not part of this model. Their replies are arguments, and a store changes exactly when the reply reports success: `add_user` with status 200 or 201, `add_otp` with a non-empty id, `update_user_password` with status 200.
- `search_otp` is taken to return the most recently stored code for the address.

The code departs from a single-use reset that compares the submitted code. The legacy OTP record's `used` flag (routes.py:48) points to that design, but nothing in the current controller sets it. The model follows the code:

- reset never consumes the code. `AuthFlows.ResetCanBeReplayed` shows that a second reset is accepted.
- reset never compares a submitted code. It only checks that some code for the address exists and has not expired.
- Older codes stay valid when a new one is issued. Only the latest is consulted.
- The expiry test is strict (`exp < now`), so a code is still accepted at its expiry instant.
- A failed decode echoes the library's message in the 500 response.
- auth.py's login echoes the request body, plaintext password included, as the 200 payload. Only signup blanks it.
- A header with fewer than two whitespace-separated pieces makes `split()[1]` raise `IndexError`, which no handler catches.
- In `getAllTags` the cache test is on the serialised text's length. Any present cache, even `[]`, is therefore a hit.

## Model

| member | source | states |
|---|---|---|
| Digits.Join | backend/authentication/placy/controllers/auth.py:61 | the joined draws have one character per draw, each a decimal digit whose value is that draw |
| Digits.JoinOfValues | backend/placy/routes.py:33 | every digit string is the outcome of some draws, so every six-digit code can be generated |
| Text.Words | backend/authentication/placy/controllers/auth.py:254 | `split()` yields only non-empty pieces without whitespace |
| Text.WordsOfUnwords | backend/authentication/placy/controllers/auth.py:254 | `split()` recovers whitespace-free words glued with single spaces |
| Text.SecondWord | backend/authentication/placy/controllers/auth.py:254 | `split()[1]` of `scheme + " " + token` is the token |
| Text.Split | backend/community/src/api/middlewares/isAuth.ts:10-13 | `split(' ')` yields at least one piece and no piece contains a space |
| Text.JoinOfSplit | backend/community/src/api/middlewares/isAuth.ts:10-13 | joining the pieces of `split(' ')` with spaces gives the header back |
| Text.SplitOfJoin | backend/community/src/api/middlewares/isAuth.ts:10-13 | `split(' ')` recovers space-free pieces joined by spaces |
| AuthController.SearchOtp | backend/authentication/placy/controllers/auth.py:73 | no code is found iff none is stored for the address; a found code belongs to the address |
| AuthController.SetPassword | backend/authentication/placy/controllers/auth.py:96 | only the named account's password changes, and no account is added or removed |
| AuthController.GenerateOtp | backend/authentication/placy/controllers/auth.py:59-69 | the code is six decimal digits read from the draws, and it expires `otp_expiry` after now |
| AuthController.Reset | backend/authentication/placy/controllers/auth.py:71-109 | no code gives 400 "OTP not found." with stores unchanged; a code expired strictly before now gives 400 "OTP has expired." with stores unchanged; an accepted code with a new password the hasher refuses raises an uncaught ValueError, stores unchanged; success iff a code is accepted, the password is hashed and the update replies 200; a failed update propagates its status and message with stores unchanged; the OTP collection and the outbox never change |
| AuthController.Forgot | backend/authentication/placy/controllers/auth.py:111-125 | an empty insert id returns the repository's status and message, stores unchanged, nothing queued; otherwise 200 with "null", one new code that is exactly `generate_otp`'s code from the draws, expiring `otp_expiry` after now, and exactly one queued email carrying that code, whose digits are the draws |
| AuthController.GenerateToken | backend/authentication/placy/controllers/auth.py:234-250 | with a sound codec both tokens carry the payload; the access token expires `token_expiry` and the refresh token `refresh_expiry` after now |
| AuthController.DecodeToken | backend/authentication/placy/controllers/auth.py:252-280 | fewer than two header pieces raise an uncaught IndexError; otherwise, when the verifier accepts the second piece its claims are confirmed; an expired token gives 401 "JWT token has expired"; any other failure gives 500 with the library's message |
| AuthController.Refresh | backend/authentication/placy/controllers/auth.py:132-160 | no header gives 401 "No authorization header."; a refused decode is answered with decodeToken's own response (the IndexError, the 401, or the 500 with the message); a new pair is issued iff decoding succeeds, and it carries the decoded payload with fresh expiries |
| AuthController.Login | backend/authentication/placy/controllers/auth.py:200-232 | an unknown email gives 404 "User not found"; a hash mismatch gives 400 "email/password wrong"; an oversized password or a stored string the hasher does not recognise raises an uncaught ValueError; the only other 500 is the empty-token one, which a sound codec never produces; success is 200 with the request body as payload and tokens whose claims hold email and username only |
| AuthController.Signup | backend/authentication/placy/controllers/auth.py:162-198 | a password the hasher refuses raises an uncaught ValueError before the store is touched; a store status other than 200/201 is returned with stores unchanged; otherwise the account is stored with the PBKDF2 hash and the other accounts are kept, and the response is login's on the new store, with the payload password blanked when login succeeds; with sound libraries it is a signed-in response whose access and refresh tokens carry the payload |
| AuthFlows.SearchOtpLatest | backend/authentication/placy/controllers/auth.py:73 | the code stored last for an address is the one reset consults |
| AuthFlows.ForgotKeepsInvariants | backend/authentication/placy/controllers/auth.py:113-125 | forgot keeps every stored code six digits and every queued email backed by a stored code for the same address |
| AuthFlows.ResetAndSignupKeepInvariants | backend/authentication/placy/controllers/auth.py:71-109 | reset and signup keep both store invariants |
| AuthFlows.SignupThenLogin | backend/authentication/placy/controllers/auth.py:162-232 | after a successful signup with a password within the size limit, the same credentials log in and any other password within the limit gets 400 |
| AuthFlows.ForgotThenReset | backend/authentication/placy/controllers/auth.py:83-90 | a code from forgot is refused strictly after its expiry instant; up to and including it, reset succeeds, or raises a ValueError when the hasher refuses the new password |
| AuthFlows.ResetThenLogin | backend/authentication/placy/controllers/auth.py:93-109 | after a successful reset the new password logs in and the old one, if within the size limit, gets 400 |
| AuthFlows.ResetCanBeReplayed | backend/authentication/placy/controllers/auth.py:71-109 | reset does not consume the code: repeating it at the same instant with a hashable password succeeds again |
| AuthFlows.OversizedPasswordRaises | backend/authentication/placy/controllers/auth.py:49-57 | a password over 4096 characters makes signup and an accepted reset raise with stores unchanged, and makes login of an existing account raise where a wrong password would get 400 |
| AuthFlows.RefreshOfLoginToken | backend/authentication/placy/controllers/auth.py:132-160 | login's access token sent as `Bearer <token>` is re-issued for the same payload before its expiry and gets 401 "JWT token has expired" from then on |
| AuthFlows.LoginTokensIgnorePassword | backend/authentication/placy/controllers/auth.py:216 | two logins differing only in the password get the same token pair: the password is not part of the payload |
| Router.GenerateHash | backend/placy/routes.py:31-36 | the salt is six decimal digits from the draws and the hash is the password followed by the salt |
| Router.GenerateOtp | backend/placy/routes.py:42-49 | six decimal digits from the draws, expiry fifteen minutes after now, not used |
| Router.Reset | backend/placy/routes.py:51-58 | every request gets 501 "Not implemented yet." with `success = false` |
| Router.Forgot | backend/placy/routes.py:60-69 | an empty insert id returns the database's status and message with stores unchanged; otherwise 200 "null" and one new code that is exactly `generate_otp`'s: unused, valid for fifteen minutes, and made of the drawn digits |
| Router.GenerateToken | backend/placy/routes.py:189-207 | without `SECRET_KEY` the pair is `("", "")`; otherwise both tokens carry the account without password and salt, expiring one day and seven days after now |
| Router.Refresh | backend/placy/routes.py:71-113 | no header gives 401; fewer than two pieces raise IndexError; a missing `SECRET_KEY` gives 500 "'SECRET_KEY'"; 401 "JWT token has expired" iff the verifier reports expiry; any other decode failure gives 500 with the library's message; a successful decode gives 200 and a pair carrying the decoded claims with one-day and seven-day expiries, and a new pair comes only from such a decode |
| Router.Signup | backend/placy/routes.py:119-148 | an empty insert id returns the database's status and message with stores unchanged; otherwise the account is added, the other accounts are kept, the stored credentials are the request's with the password replaced by `generate_hash`'s `password + salt` and the salt stored, so they match their own salted hash, with the profile not completed, and the response is 200 with password "" and no salt and no tokens |
| Router.Login | backend/placy/routes.py:150-187 | a missing user gives 404; a mismatch, with an absent salt read as "", gives 400; success needs `SECRET_KEY`, otherwise the only 500 is the empty-token one, which a configured `SECRET_KEY` with a sound codec never produces; success is 200 with password and salt blanked in the payload, and with a sound codec its access and refresh tokens carry the account's password-free claims with one-day and seven-day expiries |
| RouterFlows.ComparePasswordsMeaning | backend/placy/routes.py:38-40 | `Router.ComparePasswords` accepts iff the stored string is the given password followed by the salt |
| RouterFlows.HashThenCompare | backend/placy/routes.py:31-40 | comparing against `generate_hash`'s output accepts the original password and nothing else |
| RouterFlows.HashIsNotPlaintext | backend/placy/routes.py:34 | the stored "hash" never equals the plaintext |
| RouterFlows.ForgotAndSignupKeepCodesFresh | backend/placy/routes.py:42-69 | forgot and signup keep every stored code an unused six-digit string, whatever the database replies |
| RouterFlows.SignupThenLogin | backend/placy/routes.py:119-187 | after a successful signup the same password logs in when `SECRET_KEY` is configured, and any other password gets 400 |
| RouterFlows.LoginWithoutSecretKey | backend/placy/routes.py:168-175 | without `SECRET_KEY` the right password gets 500 "Can't generate token. SECRET_KEY empty." |
| RouterFlows.TokensIgnoreSecrets | backend/placy/routes.py:191 | the token pair does not depend on the account's password or salt |
| RouterFlows.RefreshOfLoginToken | backend/placy/routes.py:71-113 | login's access token is re-issued before its one-day expiry and gets 401 from then on |
| IsAuth.GetTokenFromHeader | backend/community/src/api/middlewares/isAuth.ts:8-16 | null iff the header is absent or its first piece is not exactly `Token` or `Bearer`; a token iff the scheme is known and a second piece exists, and then it is that piece |
| IsAuth.CheckToken | backend/community/src/api/middlewares/isAuth.ts:18-33 | a falsy token with `isAuth` throws the 401 object; otherwise the verifier's payload is returned and its error is rethrown unchanged, never turned into a return value |
| IsAuth.Middleware | backend/community/src/api/middlewares/isAuth.ts:35-48 | `next()` is called plainly iff the check returns, with `currentUser` set to the decoded token; on any error the request is unchanged and `next` gets the error |
| IsAuth.TokenOfScheme | backend/community/src/api/middlewares/isAuth.ts:8-14 | `Bearer <token>` and `Token <token>` yield the token |
| IsAuth.OtherSchemeIsNull | backend/community/src/api/middlewares/isAuth.ts:15 | any other scheme yields null |
| IsAuth.MissingHeaderNeverVerified | backend/community/src/api/middlewares/isAuth.ts:20-21 | a missing header is refused with 401 whatever the verifier would say |
| IsAuth.BearerAccepted | backend/community/src/api/middlewares/isAuth.ts:38-44 | an accepted bearer token sets `currentUser` to the decoded token and calls `next()` |
| IsAuth.BearerRejected | backend/community/src/api/middlewares/isAuth.ts:22-47 | a rejected bearer token reaches `next` as the verifier's own error, `currentUser` unchanged |
| TagRepository.Resultify | backend/community/src/repositories/tagRepository.ts:65-70 | same length and order, each element keeps only `_id` and `tag` |
| TagRepository.ResultifyAppend | backend/community/src/repositories/tagRepository.ts:65-70 | projecting a concatenation concatenates the projections |
| TagRepository.CreateTag | backend/community/src/repositories/tagRepository.ts:23-28 | a rejected insert throws the database's error with stores unchanged; otherwise the document for the tag is appended to the collection |
| TagRepository.AddTagInCache | backend/community/src/repositories/tagRepository.ts:30-36 | the cache becomes the previous list (`[]` when absent) followed by the entry, and that value is returned |
| TagRepository.PopulateTagsInCache | backend/community/src/repositories/tagRepository.ts:38-42 | the cache is overwritten with exactly the list, which is returned |
| TagRepository.GetTagsFromDB | backend/community/src/repositories/tagRepository.ts:44-48 | the projection of every stored tag, the cache untouched |
| TagRepository.GetTagsFromCache | backend/community/src/repositories/tagRepository.ts:50-53 | the cached list, or nothing when the key is absent |
| TagRepository.ReinitializeCache | backend/community/src/repositories/tagRepository.ts:55-63 | the cache becomes the projection of the whole collection, which is unchanged, so the stores are coherent |
| TagService.CreateTag | backend/community/src/services/tagService.ts:16-20 | returns `{_id, tag}` of the new record; the collection gains the record before the cache is read and appended with that entry; a failed insert throws the database's error and leaves both stores alone |
| TagService.GetAllTags | backend/community/src/services/tagService.ts:22-35 | a present cache is returned without reading the database; an absent one yields the database's projection, which is written to the cache |
| TagService.ReadThrough | backend/community/src/services/tagService.ts:22-35 | from coherent stores the list served is the database's, hit or miss, and the stores stay coherent |
| TagService.HitSkipsDatabase | backend/community/src/services/tagService.ts:23-28 | a cache hit makes no database read |
| TagService.CreateTagKeepsCoherence | backend/community/src/services/tagService.ts:16-20 | with the cache present, creating a tag keeps cache and database coherent |
| TagService.ColdCacheHidesTags | backend/community/src/repositories/tagRepository.ts:30-36 | with the cache key absent and at least one stored tag, creating a tag leaves a cache holding only the new entry, so the next read serves that one entry and not the database's list |
| TagService.ReinitializeThenRead | backend/community/src/repositories/tagRepository.ts:55-63 | after reinitialising, reads serve the database's tags |

## Left out

- Logging calls: they have no behaviour.
- PBKDF2 and JWT internals: the `passlib` hasher and the PyJWT/`jsonwebtoken` signers and verifiers are function values. What the flows need of them is stated as the hypotheses `AuthController.SoundHasher` and `Jwt.Sound`. The signing algorithm and the allowed-algorithm list are folded into these functions. The size limit is taken at passlib's default of 4096 characters.
- The clock: every `datetime.now()` within one request reads the same integer instant, in seconds. PyJWT reads the naive local `datetime` it is given as UTC, so the stated token lifetimes are exact only on a host whose clock runs in UTC; elsewhere every token is off by the host's UTC offset. The `dateutil` round trip of an OTP's expiry through a string is taken as the identity.
- Randomness: `random.randint` draws and PBKDF2's internal salt are arguments. Their distribution is not modelled.
- The repositories: `auth_repository`, `otp_repository` and the legacy `DatabaseService` are not part of this model. Their replies are arguments, and the stores are maps and sequences.
- Email delivery: FastAPI `BackgroundTasks` and `emailService.ts` are not modelled. A queued email is an appended outbox record.
- MongoDB, Redis and JSON: `JSON.stringify` and `JSON.parse` are taken to be inverse, and the cache holds the list itself.
- Concurrency: the read-modify-write race on the tag cache is not modelled. Neither is the ordering of the un-awaited `populateTagsInCache` against the response.
- Router.Claims: `jsonable_encoder` also puts the account's `profile` into the token payload. The model leaves the profile out of accounts and claims, because it is empty at signup and no modelled route changes it.
- TagRepository.CreateTag: the `!tagRecord` test after `.toObject()` can never fire, so "Tag cannot be created" is never thrown and is not modelled. A create that rejects throws the driver's error, which `Failed(reason)` carries on. A create that resolves to nothing would raise a `TypeError` at `.toObject()`; that is folded into the same case.
- Router.Login: the legacy `search_user(auth)` takes the whole request body; the model looks the account up by email, since `DatabaseService` is not part of this model.
- `checkhealth`: it returns a constant and is not part of the core.
- Route wiring, server start-up and client code are framework glue and UI.
- Text.Words: only ASCII whitespace is treated as a separator. Python's `split()` also splits on the separator controls 0x1C-0x1F and on non-ASCII Unicode whitespace.
- Router.Refresh: the `decoded == None` branch is not modelled. The decoder always yields claims or an error, as `jwt.decode` does.
- Router.Refresh: a validly signed payload without an `auth` entry, which would raise `KeyError` or fail `User.parse_obj`, is not modelled. Decoded claims always have the shape this service signs.
- AuthController.GenerateToken: the expiry of each token is stated through decoding under `Jwt.Sound`, not about the raw token string.
- Router.GenerateToken: the expiry of each token is stated through decoding under `Jwt.Sound`, not about the raw token string.

=== FILE: auth_controller.dfy ===
/** The authentication controller of the FastAPI service: signup, login,
    forgot-password, reset-password and token refresh.

    Each route is a pure function of the request, the stores, the clock and
    the replies of the repositories whose code is outside this model; it
    returns the response and the stores afterwards. PBKDF2 and JWT are the
    function values of `Env`; the facts the flows rely on about them are the
    hypotheses `SoundHasher` and `Jwt.Sound`. */
module AuthController {

  import opened Optional
  import opened Http
  import Digits
  import Text
  import Jwt

  /** A signup/login request body. */
  datatype Auth = Auth(email: string, username: string, password: string)

  /** A reset-password request body. */
  datatype PasswordUpdate = PasswordUpdate(email: string, newPassword: string)

  /** A stored account; `password` holds the PBKDF2 hash string. */
  datatype User = User(email: string, username: string, password: string, createdAt: int, updatedAt: int)

  /** A stored one-time code with its expiry instant. */
  datatype Otp = Otp(email: string, otp: string, exp: int)

  /** The token payload: the request body without its `password` field. */
  datatype Subject = Subject(email: string, username: string)

  /** A token's claims: the payload plus its `exp` instant. */
  datatype Claims = Claims(subject: Subject, exp: int)

  /** A background task that mails `code` to `to`. */
  datatype QueuedEmail = QueuedEmail(to: string, code: string)

  /** Settings fixed at start-up; durations and instants are in seconds. */
  datatype Config = Config(secretKey: string, otpExpiry: int, tokenExpiry: int, refreshExpiry: int)

  /** `pbkdf2_sha256`: `hash(password, salt)` with the salt it draws
      internally made explicit, and `verify(given, hash)`. Either is `None`
      when it raises a `ValueError`: `PasswordSizeError` for a secret longer
      than the library's limit, or `InvalidHashError`/`MalformedHashError`
      when the stored string is not a hash `verify` recognises (an account
      written by the older routes as `password + salt`, say). */
  datatype Hasher = Hasher(hash: (string, string) -> Option<string>, verify: (string, string) -> Option<bool>)

  datatype Env = Env(config: Config, hasher: Hasher, jwt: Jwt.Codec<Claims>)

  /** The user collection keyed by email, the OTP collection in insertion
      order, and the background tasks queued so far. */
  datatype Store = Store(users: map<string, User>, otps: seq<Otp>, outbox: seq<QueuedEmail>)

  /** The `{status, errmsg}` reply of `add_user` or `update_user_password`. */
  datatype DbReply = DbReply(status: int, errmsg: string)

  /** The `(id, errmsg, status_code)` reply of `add_otp`; `id == ""` means
      the insert failed. */
  datatype InsertReply = InsertReply(id: string, errmsg: string, status: int)

  /** What `decodeToken` hands back: the decoded claims, or the response the
      refresh route returns as is. */
  datatype TokenResponse = Confirmed(claims: Claims) | Refused(error: Response<Auth>)

  const NO_HEADER := "No authorization header."
  const TOKEN_EXPIRED := "JWT token has expired"
  const INDEX_ERROR := "IndexError: list index out of range"
  /** The kind of exception passlib raises for an oversized secret or an
      unrecognised hash; both escape the handlers. */
  const VALUE_ERROR := "ValueError"
  /** passlib's default `MAX_PASSWORD_SIZE`. */
  const MAX_PASSWORD_SIZE: int := 4096

  function ExpOf(c: Claims): int {
    c.exp
  }

  /** PBKDF2 hashes exactly the secrets within the size limit, refuses to
      verify an oversized secret, and, for a secret within the limit,
      recognises every hash it produced and accepts exactly the password that
      was hashed. */
  ghost predicate SoundHasher(h: Hasher) {
    && (forall password, salt :: h.hash(password, salt).Some? <==> |password| <= MAX_PASSWORD_SIZE)
    && (forall given, stored :: |given| > MAX_PASSWORD_SIZE ==> h.verify(given, stored).None?)
    && (forall given, password, salt :: |given| <= MAX_PASSWORD_SIZE && h.hash(password, salt).Some? ==>
          h.verify(given, h.hash(password, salt).value) == Some(given == password))
  }

  ghost predicate SoundEnv(env: Env) {
    SoundHasher(env.hasher) && Jwt.Sound(env.jwt, ExpOf)
  }

  /** `token`, checked with the configured key, yields claims `c` while the
      clock is before `c.exp` and the expiry error from then on. */
  ghost predicate Carries(env: Env, token: string, c: Claims) {
    forall now :: env.jwt.decode(token, env.config.secretKey, now)
                  == if now < c.exp then Jwt.Valid(c) else Jwt.Expired
  }

  /** Reset accepts the stored code for `email` at `now`: one exists and its
      expiry is not strictly before `now`. */
  predicate OtpAccepted(store: Store, email: string, now: int) {
    SearchOtp(store.otps, email).Some? && now <= SearchOtp(store.otps, email).value.exp
  }

  // ---------------------------------------------------------------------
  // Repositories (lookups on the stores)

  /** `auth_repo.search_user(email)`. */
  function SearchUser(store: Store, email: string): Option<User> {
    if email in store.users then Some(store.users[email]) else None
  }

  /** `otp_repo.search_otp(email)`: the most recently stored code for that
      address. */
  function SearchOtp(otps: seq<Otp>, email: string): (found: Option<Otp>)
    ensures found.None? <==> forall i :: 0 <= i < |otps| ==> otps[i].email != email
    ensures found.Some? ==> found.value in otps && found.value.email == email
  {
    if |otps| == 0 then None
    else if otps[|otps| - 1].email == email then Some(otps[|otps| - 1])
    else SearchOtp(otps[..|otps| - 1], email)
  }

  /** The effect of a successful `update_user_password`. */
  function SetPassword(users: map<string, User>, email: string, hash: string): (users': map<string, User>)
    ensures users'.Keys == users.Keys
    ensures forall e :: e in users && e != email ==> users'[e] == users[e]
    ensures email in users ==> users'[email] == users[email].(password := hash)
  {
    if email in users then users[email := users[email].(password := hash)] else users
  }

  // ---------------------------------------------------------------------
  // Routes

  /** `generate_otp`: six drawn digits and an expiry `otp_expiry` from now. */
  function GenerateOtp(config: Config, email: string, draws: seq<Digits.Digit>, now: int): (o: Otp)
    requires |draws| == 6
    ensures o.email == email
    ensures |o.otp| == 6 && Digits.AllDigits(o.otp) && Digits.Values(o.otp) == draws
    ensures o.exp - now == config.otpExpiry
  {
    Otp(email, Digits.Join(draws), now + config.otpExpiry)
  }

  /** `reset`: look the code up, refuse it once strictly past its expiry,
      then store the new password's hash. The code itself is left in place. */
  function Reset(env: Env, store: Store, update: PasswordUpdate, salt: string, now: int, reply: DbReply)
    : (res: (Response<Auth>, Store))
    ensures res.1.otps == store.otps && res.1.outbox == store.outbox
    ensures SearchOtp(store.otps, update.email).None? ==>
              res == (ErrorResponse(BAD_REQUEST, false, "OTP not found."), store)
    ensures SearchOtp(store.otps, update.email).Some? && SearchOtp(store.otps, update.email).value.exp < now ==>
              res == (ErrorResponse(BAD_REQUEST, false, "OTP has expired."), store)
    ensures res.0.Succeeded() <==>
              OtpAccepted(store, update.email, now) && env.hasher.hash(update.newPassword, salt).Some? && reply.status == OK
    ensures res.0.Succeeded() ==>
              res.0 == ErrorResponse(OK, true, "")
              && res.1.users == SetPassword(store.users, update.email, env.hasher.hash(update.newPassword, salt).value)
    ensures !res.0.Succeeded() ==> res.1 == store
    ensures OtpAccepted(store, update.email, now) && env.hasher.hash(update.newPassword, salt).None? ==>
              res.0 == Unhandled(VALUE_ERROR)
    ensures OtpAccepted(store, update.email, now) && env.hasher.hash(update.newPassword, salt).Some? && reply.status != OK ==>
              res.0 == ErrorResponse(reply.status, false, reply.errmsg)
  {
    match SearchOtp(store.otps, update.email)
    case None => (ErrorResponse(BAD_REQUEST, false, "OTP not found."), store)
    case Some(otp) =>
      if otp.exp < now then (ErrorResponse(BAD_REQUEST, false, "OTP has expired."), store)
      else
        match env.hasher.hash(update.newPassword, salt)
        case None => (Unhandled(VALUE_ERROR), store)
        case Some(hash) =>
          if reply.status != OK then (ErrorResponse(reply.status, false, reply.errmsg), store)
          else (ErrorResponse(reply.status, true, ""), store.(users := SetPassword(store.users, update.email, hash)))
  }

  /** `forgot`: store a fresh code and queue one email carrying it. */
  function Forgot(env: Env, store: Store, email: string, draws: seq<Digits.Digit>, now: int, reply: InsertReply)
    : (res: (Response<Auth>, Store))
    requires |draws| == 6
    ensures res.1.users == store.users
    ensures reply.id == "" ==> res == (ErrorResponse(reply.status, false, reply.errmsg), store)
    ensures reply.id != "" ==>
              && res.0 == ErrorResponse(OK, true, "null")
              && |res.1.otps| == |store.otps| + 1
              && res.1.otps[..|store.otps|] == store.otps
              && res.1.outbox == store.outbox + [QueuedEmail(email, res.1.otps[|store.otps|].otp)]
    ensures reply.id != "" ==>
              var o := res.1.otps[|store.otps|];
              o.email == email && |o.otp| == 6 && Digits.AllDigits(o.otp) && o.exp == now + env.config.otpExpiry
    ensures reply.id != "" ==>
              && res.1.otps[|store.otps|] == GenerateOtp(env.config, email, draws, now)
              && Digits.Values(res.1.outbox[|store.outbox|].code) == draws
  {
    var otp := GenerateOtp(env.config, email, draws, now);
    if reply.id == "" then (ErrorResponse(reply.status, false, reply.errmsg), store)
    else (ErrorResponse(OK, true, "null"),
          store.(otps := store.otps + [otp], outbox := store.outbox + [QueuedEmail(email, otp.otp)]))
  }

  /** `generate_token`: the same payload signed twice, with `exp` set to
      `token_expiry` and then `refresh_expiry` from now. */
  function GenerateToken(env: Env, subject: Subject, now: int): (pair: (string, string))
    ensures Jwt.Sound(env.jwt, ExpOf) ==>
              && Text.IsWord(pair.0) && Text.IsWord(pair.1)
              && Carries(env, pair.0, Claims(subject, now + env.config.tokenExpiry))
              && Carries(env, pair.1, Claims(subject, now + env.config.refreshExpiry))
  {
    var key := env.config.secretKey;
    (env.jwt.encode(Claims(subject, now + env.config.tokenExpiry), key),
     env.jwt.encode(Claims(subject, now + env.config.refreshExpiry), key))
  }

  /** `decodeToken`: take the second whitespace-separated piece of the
      header and verify it; an expired token is a 401, any other failure a
      500 carrying the library's message. A header with fewer than two
      pieces raises `IndexError`, which no handler catches. */
  function DecodeToken(env: Env, header: string, now: int): (r: TokenResponse)
    ensures |Text.Words(header)| < 2 ==> r == Refused(Unhandled(INDEX_ERROR))
    ensures r.Confirmed? ==>
              |Text.Words(header)| >= 2
              && env.jwt.decode(Text.Words(header)[1], env.config.secretKey, now) == Jwt.Valid(r.claims)
    ensures r.Refused? && r.error.ErrorResponse? ==>
              && !r.error.success
              && (r.error.status == UNAUTHORIZED || r.error.status == INTERNAL_SERVER_ERROR)
    ensures |Text.Words(header)| >= 2 ==>
              (r == Refused(ErrorResponse(UNAUTHORIZED, false, TOKEN_EXPIRED))
               <==> env.jwt.decode(Text.Words(header)[1], env.config.secretKey, now).Expired?)
    ensures |Text.Words(header)| >= 2 ==>
              var d := env.jwt.decode(Text.Words(header)[1], env.config.secretKey, now);
              && (d.Valid? ==> r == Confirmed(d.claims))
              && (d.Invalid? ==> r == Refused(ErrorResponse(INTERNAL_SERVER_ERROR, false, d.message)))
  {
    var pieces := Text.Words(header);
    if |pieces| < 2 then Refused(Unhandled(INDEX_ERROR))
    else
      match env.jwt.decode(pieces[1], env.config.secretKey, now)
      case Valid(c) => Confirmed(c)
      case Expired => Refused(ErrorResponse(UNAUTHORIZED, false, TOKEN_EXPIRED))
      case Invalid(msg) => Refused(ErrorResponse(INTERNAL_SERVER_ERROR, false, msg))
  }

  /** `refresh`: without a header, 401; otherwise re-sign the decoded
      payload with fresh expiries. */
  function Refresh(env: Env, header: Option<string>, now: int): (r: Response<Auth>)
    ensures header.None? ==> r == ErrorResponse(UNAUTHORIZED, false, NO_HEADER)
    ensures r.RefreshResponse? ==>
              && header.Some? && DecodeToken(env, header.value, now).Confirmed?
              && r.status == OK
              && (Jwt.Sound(env.jwt, ExpOf) ==>
                    var s := DecodeToken(env, header.value, now).claims.subject;
                    Carries(env, r.accessToken, Claims(s, now + env.config.tokenExpiry))
                    && Carries(env, r.refreshToken, Claims(s, now + env.config.refreshExpiry)))
    ensures header.Some? ==> (r.RefreshResponse? <==> DecodeToken(env, header.value, now).Confirmed?)
    ensures header.Some? && DecodeToken(env, header.value, now).Refused? ==>
              r == DecodeToken(env, header.value, now).error
  {
    match header
    case None => ErrorResponse(UNAUTHORIZED, false, NO_HEADER)
    case Some(h) =>
      match DecodeToken(env, h, now)
      case Refused(error) => error
      case Confirmed(claims) =>
        var (token, refresh) := GenerateToken(env, claims.subject, now);
        RefreshResponse(OK, token, refresh)
  }

  /** `login`: find the account, check the password, sign a token pair
      whose payload leaves the password out. The 200 response echoes the
      request body as its payload. An oversized password or a stored string
      the hasher does not recognise makes `verify` raise, and nothing catches
      it. */
  function Login(env: Env, store: Store, auth: Auth, now: int): (r: Response<Auth>)
    ensures auth.email !in store.users ==> r == ErrorResponse(NOT_FOUND, false, "User not found")
    ensures auth.email in store.users && env.hasher.verify(auth.password, store.users[auth.email].password) == Some(false) ==>
              r == ErrorResponse(BAD_REQUEST, false, "email/password wrong")
    ensures r.Unhandled? <==>
              auth.email in store.users && env.hasher.verify(auth.password, store.users[auth.email].password).None?
    ensures r.Unhandled? ==> r.exception == VALUE_ERROR
    ensures r.AuthResponse? <==>
              && auth.email in store.users
              && env.hasher.verify(auth.password, store.users[auth.email].password) == Some(true)
              && r.Code() != INTERNAL_SERVER_ERROR
    ensures r.ErrorResponse? && r.status == INTERNAL_SERVER_ERROR ==>
              r == ErrorResponse(INTERNAL_SERVER_ERROR, false, "Can't generate token. SECRET_KEY empty.")
    ensures r.AuthResponse? ==>
              && r.status == OK && r.payload == auth
              && r.token.Some? && r.refresh.Some? && r.token.value != ""
              && (Jwt.Sound(env.jwt, ExpOf) ==>
                    Carries(env, r.token.value, Claims(Subject(auth.email, auth.username), now + env.config.tokenExpiry))
                    && Carries(env, r.refresh.value, Claims(Subject(auth.email, auth.username), now + env.config.refreshExpiry)))
    ensures Jwt.Sound(env.jwt, ExpOf) ==> (r.Code() == INTERNAL_SERVER_ERROR <==> r.Unhandled?)
  {
    match SearchUser(store, auth.email)
    case None => ErrorResponse(NOT_FOUND, false, "User not found")
    case Some(found) =>
      match env.hasher.verify(auth.password, found.password)
      case None => Unhandled(VALUE_ERROR)
      case Some(false) => ErrorResponse(BAD_REQUEST, false, "email/password wrong")
      case Some(true) =>
        var (token, refresh) := GenerateToken(env, Subject(auth.email, auth.username), now);
        if token == "" then
          ErrorResponse(INTERNAL_SERVER_ERROR, false, "Can't generate token. SECRET_KEY empty.")
        else
          AuthResponse(OK, auth, Some(token), Some(refresh))
  }

  /** `signup`: hash the password, store the account, then answer with
      login's response, its payload's password blanked. */
  function Signup(env: Env, store: Store, auth: Auth, salt: string, now: int, reply: DbReply)
    : (res: (Response<Auth>, Store))
    ensures res.1.otps == store.otps && res.1.outbox == store.outbox
    ensures env.hasher.hash(auth.password, salt).None? ==> res == (Unhandled(VALUE_ERROR), store)
    ensures env.hasher.hash(auth.password, salt).Some? && reply.status != OK && reply.status != CREATED ==>
              res == (ErrorResponse(reply.status, false, reply.errmsg), store)
    ensures env.hasher.hash(auth.password, salt).Some? && (reply.status == OK || reply.status == CREATED) ==>
              && res.1.users.Keys == store.users.Keys + {auth.email}
              && res.1.users[auth.email] == User(auth.email, auth.username, env.hasher.hash(auth.password, salt).value, now, now)
              && (forall e :: e in store.users && e != auth.email ==> res.1.users[e] == store.users[e])
    ensures res.0.AuthResponse? ==> res.0.payload == auth.(password := "") && res.0.status == OK
    ensures env.hasher.hash(auth.password, salt).Some? && (reply.status == OK || reply.status == CREATED) ==>
              var l := Login(env, res.1, auth, now);
              res.0 == if l.AuthResponse? then l.(payload := l.payload.(password := "")) else l
    ensures SoundEnv(env) && |auth.password| <= MAX_PASSWORD_SIZE && (reply.status == OK || reply.status == CREATED) ==>
              && res.0.AuthResponse? && res.0.token.Some? && res.0.refresh.Some?
              && Carries(env, res.0.token.value, Claims(Subject(auth.email, auth.username), now + env.config.tokenExpiry))
              && Carries(env, res.0.refresh.value, Claims(Subject(auth.email, auth.username), now + env.config.refreshExpiry))
  {
    match env.hasher.hash(auth.password, salt)
    case None => (Unhandled(VALUE_ERROR), store)
    case Some(hash) =>
      var user := User(auth.email, auth.username, hash, now, now);
      if reply.status != OK && reply.status != CREATED then
        (ErrorResponse(reply.status, false, reply.errmsg), store)
      else
        var store' := store.(users := store.users[auth.email := user]);
        var response := Login(env, store', auth, now);
        if response.AuthResponse? then (response.(payload := response.payload.(password := "")), store')
        else (response, store')
  }
}

=== FILE: auth_flows.dfy ===
/** How the routes of `AuthController` fit together: an account created by
    signup can log in, a code mailed by forgot lets reset change the
    password, a token issued by login can be refreshed until it expires, and
    the invariants the stores keep across every route. */
module AuthFlows {

  import opened Optional
  import opened Http
  import opened AuthController
  import Digits
  import Text
  import Jwt

  /** Every queued email carries a code that is in the OTP collection for
      the same address. */
  ghost predicate OutboxBacked(store: Store) {
    forall m :: m in store.outbox ==> exists o :: o in store.otps && o.email == m.to && o.otp == m.code
  }

  /** Every stored code is six decimal digits. */
  ghost predicate CodesWellFormed(store: Store) {
    forall o :: o in store.otps ==> |o.otp| == 6 && Digits.AllDigits(o.otp)
  }

  /** The code stored last for an address is the one reset consults. */
  lemma SearchOtpLatest(otps: seq<Otp>, o: Otp)
    ensures SearchOtp(otps + [o], o.email) == Some(o)
  {
  }

  /** forgot keeps both store invariants, whatever the repository replies. */
  lemma ForgotKeepsInvariants(env: Env, store: Store, email: string, draws: seq<Digits.Digit>, now: int, reply: InsertReply)
    requires |draws| == 6
    requires OutboxBacked(store) && CodesWellFormed(store)
    ensures OutboxBacked(Forgot(env, store, email, draws, now, reply).1)
    ensures CodesWellFormed(Forgot(env, store, email, draws, now, reply).1)
  {
    var s' := Forgot(env, store, email, draws, now, reply).1;
    if reply.id != "" {
      var o := s'.otps[|store.otps|];
      assert s'.otps == store.otps + [o];
      forall m | m in s'.outbox
        ensures exists p :: p in s'.otps && p.email == m.to && p.otp == m.code
      {
        if m in store.outbox {
          var p :| p in store.otps && p.email == m.to && p.otp == m.code;
          assert p in s'.otps;
        } else {
          assert m == QueuedEmail(email, o.otp);
          assert o in s'.otps;
        }
      }
    }
  }

  /** reset and signup leave the OTP collection and the outbox alone, so they
      keep both invariants too. */
  lemma ResetAndSignupKeepInvariants(env: Env, store: Store, update: PasswordUpdate, auth: Auth, salt: string, now: int, reply: DbReply)
    requires OutboxBacked(store) && CodesWellFormed(store)
    ensures OutboxBacked(Reset(env, store, update, salt, now, reply).1)
    ensures CodesWellFormed(Reset(env, store, update, salt, now, reply).1)
    ensures OutboxBacked(Signup(env, store, auth, salt, now, reply).1)
    ensures CodesWellFormed(Signup(env, store, auth, salt, now, reply).1)
  {
  }

  /** After a successful signup the same credentials log in, and any other
      password within the size limit is refused with the generic message. */
  lemma {:induction false} SignupThenLogin(env: Env, store: Store, auth: Auth, salt: string, now: int, reply: DbReply, wrong: string)
    requires SoundEnv(env)
    requires reply.status == OK || reply.status == CREATED
    requires |auth.password| <= MAX_PASSWORD_SIZE && |wrong| <= MAX_PASSWORD_SIZE
    requires wrong != auth.password
    ensures Signup(env, store, auth, salt, now, reply).0.AuthResponse?
    ensures Login(env, Signup(env, store, auth, salt, now, reply).1, auth, now).AuthResponse?
    ensures Login(env, Signup(env, store, auth, salt, now, reply).1, auth.(password := wrong), now)
            == ErrorResponse(BAD_REQUEST, false, "email/password wrong")
  {
    var s1 := Signup(env, store, auth, salt, now, reply).1;
    var h := env.hasher.hash(auth.password, salt);
    assert h.Some?;
    assert s1.users[auth.email].password == h.value;
    assert env.hasher.verify(auth.password, h.value) == Some(true);
    assert env.hasher.verify(wrong, h.value) == Some(false);
  }

  /** A code stored by forgot at `issued` lets reset through at any `now` up
      to and including its expiry instant, and refuses it strictly after;
      an accepted code with a password the hasher refuses raises instead. */
  lemma {:induction false} ForgotThenReset(env: Env, store: Store, email: string, draws: seq<Digits.Digit>, issued: int,
                                           id: string, newPassword: string, salt: string, now: int)
    requires |draws| == 6
    requires id != ""
    ensures var s1 := Forgot(env, store, email, draws, issued, InsertReply(id, "", OK)).1;
            var r := Reset(env, s1, PasswordUpdate(email, newPassword), salt, now, DbReply(OK, "")).0;
            if now > issued + env.config.otpExpiry then r == ErrorResponse(BAD_REQUEST, false, "OTP has expired.")
            else if env.hasher.hash(newPassword, salt).None? then r == Unhandled(VALUE_ERROR)
            else r == ErrorResponse(OK, true, "")
  {
    var s1 := Forgot(env, store, email, draws, issued, InsertReply(id, "", OK)).1;
    var o := GenerateOtp(env.config, email, draws, issued);
    assert s1.otps == store.otps + [o];
    SearchOtpLatest(store.otps, o);
  }

  /** After a successful reset the new password logs in and the old one, if
      within the size limit, no longer does. */
  lemma {:induction false} ResetThenLogin(env: Env, store: Store, update: PasswordUpdate, salt: string, now: int,
                                          reply: DbReply, username: string, previous: string, later: int)
    requires SoundEnv(env)
    requires update.email in store.users
    requires Reset(env, store, update, salt, now, reply).0.Succeeded()
    requires previous != update.newPassword && |previous| <= MAX_PASSWORD_SIZE
    ensures Login(env, Reset(env, store, update, salt, now, reply).1, Auth(update.email, username, update.newPassword), later).AuthResponse?
    ensures Login(env, Reset(env, store, update, salt, now, reply).1, Auth(update.email, username, previous), later)
            == ErrorResponse(BAD_REQUEST, false, "email/password wrong")
  {
    var s1 := Reset(env, store, update, salt, now, reply).1;
    var h := env.hasher.hash(update.newPassword, salt);
    assert h.Some?;
    assert |update.newPassword| <= MAX_PASSWORD_SIZE;
    assert s1.users[update.email].password == h.value;
    assert env.hasher.verify(update.newPassword, h.value) == Some(true);
    assert env.hasher.verify(previous, h.value) == Some(false);
  }

  /** reset never consumes the code: a second reset for the same address at
      the same instant, with a password the hasher accepts, succeeds again. */
  lemma {:induction false} ResetCanBeReplayed(env: Env, store: Store, update: PasswordUpdate, salt: string, now: int,
                                              reply: DbReply, again: PasswordUpdate, salt2: string)
    requires Reset(env, store, update, salt, now, reply).0.Succeeded()
    requires again.email == update.email
    requires env.hasher.hash(again.newPassword, salt2).Some?
    ensures Reset(env, Reset(env, store, update, salt, now, reply).1, again, salt2, now, DbReply(OK, "")).0
            == ErrorResponse(OK, true, "")
  {
    var s1 := Reset(env, store, update, salt, now, reply).1;
    assert s1.otps == store.otps;
    assert OtpAccepted(s1, again.email, now);
  }

  /** An access token from login, presented as `Bearer <token>`, is
      re-issued for the same payload until its expiry and answered with 401
      from that instant on. */
  lemma {:induction false} RefreshOfLoginToken(env: Env, store: Store, auth: Auth, issued: int, now: int)
    requires SoundEnv(env)
    requires Login(env, store, auth, issued).AuthResponse?
    ensures var token := Login(env, store, auth, issued).token.value;
            var r := Refresh(env, Some("Bearer " + token), now);
            if now < issued + env.config.tokenExpiry then
              && r.RefreshResponse? && r.status == OK
              && Carries(env, r.accessToken, Claims(Subject(auth.email, auth.username), now + env.config.tokenExpiry))
            else r == ErrorResponse(UNAUTHORIZED, false, TOKEN_EXPIRED)
  {
    var token := Login(env, store, auth, issued).token.value;
    var pair := GenerateToken(env, Subject(auth.email, auth.username), issued);
    assert token == pair.0;
    assert Text.IsWord(token);
    assert Text.IsWord("Bearer");
    Text.SecondWord("Bearer", token);
    assert "Bearer " + token == "Bearer" + " " + token;
    var c := Claims(Subject(auth.email, auth.username), issued + env.config.tokenExpiry);
    var header := "Bearer " + token;
    assert Text.Words(header)[1] == token;
    assert env.jwt.decode(token, env.config.secretKey, now) == if now < c.exp then Jwt.Valid(c) else Jwt.Expired;
    if now < c.exp {
      assert DecodeToken(env, header, now) == Confirmed(c);
    } else {
      assert DecodeToken(env, header, now) == Refused(ErrorResponse(UNAUTHORIZED, false, TOKEN_EXPIRED));
    }
  }

  /** The token pair login signs depends on the address and username only:
      two requests that differ in the password alone get the same pair. */
  lemma LoginTokensIgnorePassword(env: Env, store: Store, a: Auth, b: Auth, now: int)
    requires a.email == b.email && a.username == b.username
    requires Login(env, store, a, now).AuthResponse? && Login(env, store, b, now).AuthResponse?
    ensures Login(env, store, a, now).token == Login(env, store, b, now).token
    ensures Login(env, store, a, now).refresh == Login(env, store, b, now).refresh
  {
  }

  /** A password over passlib's size limit never reaches the stores: signup
      and reset raise before writing, and login raises even against a valid
      hash, so the client gets a 500 where a wrong password would get 400. */
  lemma OversizedPasswordRaises(env: Env, store: Store, auth: Auth, update: PasswordUpdate, salt: string, now: int,
                                reply: DbReply)
    requires SoundHasher(env.hasher)
    requires |auth.password| > MAX_PASSWORD_SIZE && |update.newPassword| > MAX_PASSWORD_SIZE
    ensures Signup(env, store, auth, salt, now, reply) == (Unhandled(VALUE_ERROR), store)
    ensures auth.email in store.users ==> Login(env, store, auth, now) == Unhandled(VALUE_ERROR)
    ensures OtpAccepted(store, update.email, now) ==>
              Reset(env, store, update, salt, now, reply) == (Unhandled(VALUE_ERROR), store)
  {
  }
}

=== FILE: digits.dfy ===
/** Decimal digit strings such as the six-character one-time codes and
    salts built by `"".join(str(random.randint(0, 9)) for _ in range(6))`.
    The random draws are supplied by the caller: any sequence of values in
    0..9 is a possible outcome of the draws. */
module Digits {

  /** A value `random.randint(0, 9)` can return (both bounds inclusive). */
  type Digit = d: int | 0 <= d <= 9

  predicate IsDigitChar(c: char) {
    '0' <= c <= '9'
  }

  predicate AllDigits(s: string) {
    forall i :: 0 <= i < |s| ==> IsDigitChar(s[i])
  }

  /** The numeric value of a digit character. */
  function ValueOf(c: char): (d: Digit)
    requires IsDigitChar(c)
  {
    c as int - '0' as int
  }

  /** `str(d)` for a single digit. */
  function Show(d: Digit): (c: char)
    ensures IsDigitChar(c) && ValueOf(c) == d
  {
    ('0' as int + d) as char
  }

  /** The string obtained by joining `str(d)` for every draw `d`, in order. */
  function Join(draws: seq<Digit>): (s: string)
    ensures |s| == |draws|
    ensures AllDigits(s)
    ensures forall i :: 0 <= i < |s| ==> ValueOf(s[i]) == draws[i]
  {
    if |draws| == 0 then "" else [Show(draws[0])] + Join(draws[1..])
  }

  /** The draws a digit string was built from. */
  function Values(s: string): (draws: seq<Digit>)
    requires AllDigits(s)
    ensures |draws| == |s|
    ensures forall i :: 0 <= i < |s| ==> draws[i] == ValueOf(s[i])
  {
    seq(|s|, i requires 0 <= i < |s| => ValueOf(s[i]))
  }

  /** Reading the draws back from the joined string recovers them. */
  lemma ValuesOfJoin(draws: seq<Digit>)
    ensures Values(Join(draws)) == draws
  {
  }

  /** Every digit string of length n is the outcome of some n draws, so the
      generator can produce any code of the right shape. */
  lemma JoinOfValues(s: string)
    requires AllDigits(s)
    ensures Join(Values(s)) == s
  {
    var t := Join(Values(s));
    forall i | 0 <= i < |s|
      ensures t[i] == s[i]
    {
      assert ValueOf(t[i]) == ValueOf(s[i]);
    }
  }
}

=== FILE: http.dfy ===
/** The response envelope every route handler of the authentication
    service returns, and the HTTP status codes it uses. */
module Http {

  import opened Optional

  const OK: int := 200
  const CREATED: int := 201
  const BAD_REQUEST: int := 400
  const UNAUTHORIZED: int := 401
  const NOT_FOUND: int := 404
  const INTERNAL_SERVER_ERROR: int := 500
  const NOT_IMPLEMENTED: int := 501

  /** One handler's answer. `P` is the payload type of a successful sign-in.
      - ErrorResponse: the `{status, success, errmsg}` envelope (used for
        successes too, with `success = true`);
      - AuthResponse: a successful signup/login, always `success = true`;
      - RefreshResponse: a freshly issued token pair, always `success = true`;
      - Unhandled: an exception escaped the handler, so the web framework
        answers with a plain 500. */
  datatype Response<P> =
    | ErrorResponse(status: int, success: bool, errmsg: string)
    | AuthResponse(status: int, payload: P, token: Option<string>, refresh: Option<string>)
    | RefreshResponse(status: int, accessToken: string, refreshToken: string)
    | Unhandled(exception: string)
  {
    /** The HTTP status the client receives. */
    function Code(): int {
      match this
      case ErrorResponse(s, _, _) => s
      case AuthResponse(s, _, _, _) => s
      case RefreshResponse(s, _, _) => s
      case Unhandled(_) => INTERNAL_SERVER_ERROR
    }

    /** The `success` flag of the envelope. */
    predicate Succeeded() {
      match this
      case ErrorResponse(_, ok, _) => ok
      case AuthResponse(_, _, _, _) => true
      case RefreshResponse(_, _, _) => true
      case Unhandled(_) => false
    }
  }
}

=== FILE: is_auth.dfy ===
/** The Express middleware of the community service that reads a token from
    the `Authorization` header, verifies it, and either records the decoded
    token on the request or hands the error to the next handler. The
    `jsonwebtoken` verifier, configured with the service's secret and
    algorithm, is the function value `verify`. */
module IsAuth {

  import opened Optional
  import Text

  /** What `getTokenFromHeader` returns: a piece of the header, `undefined`
      (a recognised scheme with nothing after it), or `null`. */
  datatype HeaderToken = Piece(value: string) | Undefined | Null

  /** The error object `jsonwebtoken` throws (`TokenExpiredError`,
      `JsonWebTokenError`, ...). */
  datatype JwtError = JwtError(name: string, message: string)

  /** `verify`'s answer: the decoded token, or the error it throws. */
  datatype Verdict<T> = Verified(payload: T) | Rejected(error: JwtError)

  /** What `checkToken` throws: its own 401 object, or the verifier's error
      unchanged. */
  datatype Thrown = Unauthenticated(status: int, message: string) | VerifyFailed(error: JwtError)

  /** `checkToken`'s outcome: a returned token or a thrown value. */
  datatype Checked<T> = Returned(decoded: T) | Threw(thrown: Thrown)

  /** The parts of the request the middleware reads and writes. */
  datatype Request<T> = Request(authorization: Option<string>, currentUser: Option<T>)

  /** How `next` is called: with no argument, or with the caught error. */
  datatype NextCall = Proceed | Forward(error: Thrown)

  const UNAUTHORIZED: int := 401
  const MUST_LOG_IN := "This is an authenticated resource, you must be logged in to access it."

  /** JavaScript truthiness of the token: `null`, `undefined` and `""` are
      falsy. */
  predicate Truthy(t: HeaderToken) {
    t.Piece? && t.value != ""
  }

  /** The header's first space-separated piece is exactly `Token` or `Bearer`. */
  predicate KnownScheme(header: string) {
    var first := Text.Split(header, ' ')[0];
    first == "Token" || first == "Bearer"
  }

  /** `getTokenFromHeader`: the second space-separated piece of the header
      when the header is present and its scheme is `Token` or `Bearer`;
      `null` otherwise. */
  function GetTokenFromHeader(authorization: Option<string>): (t: HeaderToken)
    ensures t.Null? <==> authorization.None? || !KnownScheme(authorization.value)
    ensures t.Piece? <==>
              authorization.Some? && KnownScheme(authorization.value) && |Text.Split(authorization.value, ' ')| >= 2
    ensures t.Piece? ==> t.value == Text.Split(authorization.value, ' ')[1] && ' ' !in t.value
  {
    match authorization
    case None => Null
    case Some(h) =>
      var parts := Text.Split(h, ' ');
      if h != "" && (parts[0] == "Token" || parts[0] == "Bearer") then
        if |parts| >= 2 then Piece(parts[1]) else Undefined
      else Null
  }

  /** `checkToken`: a falsy token on an authenticated resource is refused
      with 401 before the verifier runs; otherwise the verifier's result is
      returned, and its error is thrown on unchanged. */
  function CheckToken<T>(verify: HeaderToken -> Verdict<T>, token: HeaderToken, isAuth: bool): (r: Checked<T>)
    ensures !Truthy(token) && isAuth ==> r == Threw(Unauthenticated(UNAUTHORIZED, MUST_LOG_IN))
    ensures Truthy(token) || !isAuth ==>
              && (r.Returned? <==> verify(token).Verified?)
              && (r.Returned? ==> r.decoded == verify(token).payload)
              && (verify(token).Rejected? ==> r == Threw(VerifyFailed(verify(token).error)))
  {
    if !Truthy(token) && isAuth then Threw(Unauthenticated(UNAUTHORIZED, MUST_LOG_IN))
    else
      match verify(token)
      case Verified(decoded) => Returned(decoded)
      case Rejected(err) => Threw(VerifyFailed(err))
  }

  /** `isAuth`: on success the decoded token becomes `currentUser` and `next`
      is called with nothing; on any error the request is left as it was and
      `next` receives the error. */
  function Middleware<T>(verify: HeaderToken -> Verdict<T>, req: Request<T>): (out: (Request<T>, NextCall))
    ensures var checked := CheckToken(verify, GetTokenFromHeader(req.authorization), true);
            && (out.1.Proceed? <==> checked.Returned?)
            && (checked.Returned? ==> out.0 == req.(currentUser := Some(checked.decoded)))
            && (checked.Threw? ==> out == (req, Forward(checked.thrown)))
  {
    match CheckToken(verify, GetTokenFromHeader(req.authorization), true)
    case Returned(token) => (req.(currentUser := Some(token)), Proceed)
    case Threw(e) => (req, Forward(e))
  }

  /** `Bearer <token>` and `Token <token>` yield the token, for any token
      without spaces. */
  lemma {:induction false} TokenOfScheme(scheme: string, token: string)
    requires scheme == "Bearer" || scheme == "Token"
    requires ' ' !in token
    ensures GetTokenFromHeader(Some(scheme + " " + token)) == Piece(token)
  {
    var h := scheme + " " + token;
    assert h == Text.JoinWith([scheme, token], ' ');
    Text.SplitOfJoin([scheme, token], ' ');
  }

  /** A header with any other scheme yields `null`, whatever follows it. */
  lemma {:induction false} OtherSchemeIsNull(scheme: string, rest: string)
    requires scheme != "Bearer" && scheme != "Token"
    requires ' ' !in scheme
    ensures GetTokenFromHeader(Some(scheme + " " + rest)) == Null
  {
    Text.SplitOfPiece(scheme, ' ', rest);
    assert scheme + " " + rest == scheme + [' '] + rest;
  }

  /** A missing header is refused with the 401 object, whatever the verifier
      would have said: it is never consulted. */
  lemma MissingHeaderNeverVerified<T>(v1: HeaderToken -> Verdict<T>, v2: HeaderToken -> Verdict<T>, req: Request<T>)
    requires req.authorization.None?
    ensures Middleware(v1, req) == Middleware(v2, req)
    ensures Middleware(v1, req) == (req, Forward(Unauthenticated(UNAUTHORIZED, MUST_LOG_IN)))
  {
  }

  /** A bearer token the verifier accepts authenticates the request: the
      decoded token becomes `currentUser` and `next` is called plainly. */
  lemma {:induction false} BearerAccepted<T>(verify: HeaderToken -> Verdict<T>, req: Request<T>, token: string, user: T)
    requires token != "" && ' ' !in token
    requires req.authorization == Some("Bearer " + token)
    requires verify(Piece(token)) == Verified(user)
    ensures Middleware(verify, req) == (req.(currentUser := Some(user)), Proceed)
  {
    TokenOfScheme("Bearer", token);
    assert "Bearer " + token == "Bearer" + " " + token;
    assert CheckToken(verify, Piece(token), true) == Returned(user);
  }

  /** A token the verifier rejects is forwarded to `next` with the
      verifier's own error, and `currentUser` is left as it was. */
  lemma {:induction false} BearerRejected<T>(verify: HeaderToken -> Verdict<T>, req: Request<T>, token: string, err: JwtError)
    requires token != "" && ' ' !in token
    requires req.authorization == Some("Bearer " + token)
    requires verify(Piece(token)) == Rejected(err)
    ensures Middleware(verify, req) == (req, Forward(VerifyFailed(err)))
  {
    TokenOfScheme("Bearer", token);
    assert "Bearer " + token == "Bearer" + " " + token;
    assert CheckToken(verify, Piece(token), true) == Threw(VerifyFailed(err));
  }
}

=== FILE: jwt.dfy ===
/** JSON Web Tokens as the services use them: a signing function and a
    verifying decoder, both supplied from outside (PyJWT, jsonwebtoken).
    Only the facts the flows rely on are stated, as the predicate `Sound`. */
module Jwt {

  import Text

  /** What decoding a token yields: its claims, the `ExpiredSignatureError`
      case, or any other failure with the library's message. */
  datatype Decoding<C> = Valid(claims: C) | Expired | Invalid(message: string)

  /** A signer `encode(claims, key)` and a verifier `decode(token, key, now)`,
      the algorithm being fixed by the service's configuration. */
  datatype Codec<!C> = Codec(encode: (C, string) -> string, decode: (string, string, int) -> Decoding<C>)

  /** The library facts the flows rely on: a signed token in compact form is
      a non-empty string without whitespace (base64url parts joined by dots),
      and decoding a token with the key that signed it returns its
      claims exactly while `now` is before the claims' expiry (section 4.1.4
      of RFC 7519: the token must not be accepted on or after `exp`), and
      reports expiry afterwards. */
  ghost predicate Sound<C(!new)>(codec: Codec<C>, expOf: C -> int) {
    && (forall c, key :: Text.IsWord(codec.encode(c, key)))
    && (forall c, key, now ::
          codec.decode(codec.encode(c, key), key, now) == if now < expOf(c) then Valid(c) else Expired)
  }
}

=== FILE: optional.dfy ===
/** The "value or nothing" wrapper used for Python's `None`, JavaScript's
    `null` and a missing map entry. */
module Optional {

  datatype Option<+T> = None | Some(value: T) {

    /** The wrapped value, or `default` when there is none. */
    function GetOr(default: T): T {
      match this
      case Some(v) => v
      case None => default
    }
  }
}

=== FILE: router.dfy ===
/** The older route handlers of the service: the same flows as
    `AuthController`, with a "hash" that is the password followed by a
    six-digit salt, a configuration dictionary that may lack `SECRET_KEY`,
    and a reset route that is not implemented. */
module Router {

  import opened Optional
  import opened Http
  import Digits
  import Text
  import Jwt

  /** The credentials part of an account and of a signup/login body. */
  datatype Auth = Auth(email: string, username: string, password: string, salt: Option<string>)

  /** A stored account; the profile is empty at signup and is not modelled. */
  datatype User = User(auth: Auth, createdAt: int, updatedAt: int, profileCompleted: bool)

  datatype Otp = Otp(email: string, otp: string, exp: int, used: bool)

  /** The `auth` part of a token payload: password and salt are excluded. */
  datatype Identity = Identity(email: string, username: string)

  /** A token's claims: the account without password and salt, plus `exp`. */
  datatype Claims = Claims(auth: Identity, createdAt: int, updatedAt: int, profileCompleted: bool, exp: int)

  /** The configuration dictionary and the JWT library. */
  datatype Env = Env(config: map<string, string>, jwt: Jwt.Codec<Claims>)

  datatype Store = Store(users: map<string, User>, otps: seq<Otp>)

  /** The `(id, errmsg, status_code)` reply of `add_user` and `add_otp`;
      `id == ""` means the insert failed. */
  datatype InsertReply = InsertReply(id: string, errmsg: string, status: int)

  const SECRET_KEY := "SECRET_KEY"
  const OTP_LIFETIME: int := 15 * 60
  const ACCESS_LIFETIME: int := 24 * 60 * 60
  const REFRESH_LIFETIME: int := 7 * 24 * 60 * 60
  const NO_HEADER := "No authorization header."
  const TOKEN_EXPIRED := "JWT token has expired"
  const INDEX_ERROR := "IndexError: list index out of range"
  /** `str(KeyError("SECRET_KEY"))`. */
  const MISSING_KEY := "'SECRET_KEY'"

  function ExpOf(c: Claims): int {
    c.exp
  }

  /** The payload `jsonable_encoder` builds from an account, without the
      password and the salt, with expiry `exp`. */
  function ClaimsOf(user: User, exp: int): Claims {
    Claims(Identity(user.auth.email, user.auth.username), user.createdAt, user.updatedAt, user.profileCompleted, exp)
  }

  /** `token`, checked with `key`, yields claims `c` while the clock is
      before `c.exp` and the expiry error from then on. */
  ghost predicate Carries(env: Env, key: string, token: string, c: Claims) {
    forall now :: env.jwt.decode(token, key, now) == if now < c.exp then Jwt.Valid(c) else Jwt.Expired
  }

  /** `user.auth.salt if user.auth.salt else ""`. */
  function SaltOrEmpty(salt: Option<string>): string {
    match salt
    case Some(s) => s
    case None => ""
  }

  /** `generate_hash`: a salt of six drawn digits and the "hash"
      `password + salt`, returned as `(salt, hash)`. */
  function GenerateHash(password: string, draws: seq<Digits.Digit>): (pair: (string, string))
    requires |draws| == 6
    ensures |pair.0| == 6 && Digits.AllDigits(pair.0) && Digits.Values(pair.0) == draws
    ensures |pair.1| == |password| + 6
    ensures pair.1[..|password|] == password && pair.1[|password|..] == pair.0
  {
    var salt := Digits.Join(draws);
    (salt, password + salt)
  }

  /** `comparePasswords`: the given password followed by the salt spells the
      stored "hash". */
  predicate ComparePasswords(given: string, actual: string, salt: string) {
    given + salt == actual
  }

  /** `generate_otp`: six drawn digits, valid for fifteen minutes, unused. */
  function GenerateOtp(email: string, draws: seq<Digits.Digit>, now: int): (o: Otp)
    requires |draws| == 6
    ensures o.email == email && !o.used
    ensures |o.otp| == 6 && Digits.AllDigits(o.otp) && Digits.Values(o.otp) == draws
    ensures o.exp - now == 900
  {
    Otp(email, Digits.Join(draws), now + OTP_LIFETIME, false)
  }

  /** `reset`: not implemented; every request is answered with 501. */
  function Reset(email: string, newPassword: string): (r: Response<User>)
    ensures r.Code() == NOT_IMPLEMENTED && !r.Succeeded() && r.ErrorResponse?
    ensures r.errmsg == "Not implemented yet."
  {
    ErrorResponse(NOT_IMPLEMENTED, false, "Not implemented yet.")
  }

  /** `forgot`: store a fresh code. This version sends no email. */
  function Forgot(store: Store, email: string, draws: seq<Digits.Digit>, now: int, reply: InsertReply)
    : (res: (Response<User>, Store))
    requires |draws| == 6
    ensures res.1.users == store.users
    ensures reply.id == "" ==> res == (ErrorResponse(reply.status, false, reply.errmsg), store)
    ensures reply.id != "" ==>
              && res.0 == ErrorResponse(OK, true, "null")
              && |res.1.otps| == |store.otps| + 1 && res.1.otps[..|store.otps|] == store.otps
              && res.1.otps[|store.otps|].email == email && !res.1.otps[|store.otps|].used
              && res.1.otps[|store.otps|].exp == now + OTP_LIFETIME
              && Digits.AllDigits(res.1.otps[|store.otps|].otp) && |res.1.otps[|store.otps|].otp| == 6
    ensures reply.id != "" ==>
              && res.1.otps[|store.otps|] == GenerateOtp(email, draws, now)
              && Digits.Values(res.1.otps[|store.otps|].otp) == draws
  {
    var otp := GenerateOtp(email, draws, now);
    if reply.id == "" then (ErrorResponse(reply.status, false, reply.errmsg), store)
    else (ErrorResponse(OK, true, "null"), store.(otps := store.otps + [otp]))
  }

  /** `generateToken`: without a `SECRET_KEY` entry the pair is two empty
      strings; otherwise the payload is signed with a one-day and then a
      seven-day expiry. */
  function GenerateToken(env: Env, user: User, now: int): (pair: (string, string))
    ensures SECRET_KEY !in env.config ==> pair == ("", "")
    ensures SECRET_KEY in env.config && Jwt.Sound(env.jwt, ExpOf) ==>
              && Text.IsWord(pair.0) && Text.IsWord(pair.1)
              && Carries(env, env.config[SECRET_KEY], pair.0, ClaimsOf(user, now + 86400))
              && Carries(env, env.config[SECRET_KEY], pair.1, ClaimsOf(user, now + 604800))
  {
    if SECRET_KEY !in env.config then ("", "")
    else
      var key := env.config[SECRET_KEY];
      (env.jwt.encode(ClaimsOf(user, now + ACCESS_LIFETIME), key),
       env.jwt.encode(ClaimsOf(user, now + REFRESH_LIFETIME), key))
  }

  /** The account `User.parse_obj` rebuilds from decoded claims, password
      blanked and no salt. */
  function UserOf(c: Claims): User {
    User(Auth(c.auth.email, c.auth.username, "", None), c.createdAt, c.updatedAt, c.profileCompleted)
  }

  /** `refresh`: without a header, 401; the second whitespace-separated
      piece is decoded with `config["SECRET_KEY"]` (a missing entry raises
      `KeyError` inside the `try`, so it is a 500 with the key's name); an
      expired token is a 401, any other failure a 500; otherwise the decoded
      account is signed again. A header with fewer than two pieces raises
      `IndexError` outside the `try`. */
  function Refresh(env: Env, header: Option<string>, now: int): (r: Response<User>)
    ensures header.None? ==> r == ErrorResponse(UNAUTHORIZED, false, NO_HEADER)
    ensures header.Some? && |Text.Words(header.value)| < 2 ==> r == Unhandled(INDEX_ERROR)
    ensures header.Some? && |Text.Words(header.value)| >= 2 && SECRET_KEY !in env.config ==>
              r == ErrorResponse(INTERNAL_SERVER_ERROR, false, MISSING_KEY)
    ensures r.RefreshResponse? ==>
              && header.Some? && |Text.Words(header.value)| >= 2 && SECRET_KEY in env.config
              && env.jwt.decode(Text.Words(header.value)[1], env.config[SECRET_KEY], now).Valid?
              && r.status == OK
    ensures r == ErrorResponse(UNAUTHORIZED, false, TOKEN_EXPIRED) <==>
              && header.Some? && |Text.Words(header.value)| >= 2 && SECRET_KEY in env.config
              && env.jwt.decode(Text.Words(header.value)[1], env.config[SECRET_KEY], now).Expired?
    ensures header.Some? && |Text.Words(header.value)| >= 2 && SECRET_KEY in env.config ==>
              var key := env.config[SECRET_KEY];
              var d := env.jwt.decode(Text.Words(header.value)[1], key, now);
              && (d.Invalid? ==> r == ErrorResponse(INTERNAL_SERVER_ERROR, false, d.message))
              && (d.Valid? ==>
                    && r.RefreshResponse? && r.status == OK
                    && (Jwt.Sound(env.jwt, ExpOf) ==>
                          && Carries(env, key, r.accessToken, d.claims.(exp := now + ACCESS_LIFETIME))
                          && Carries(env, key, r.refreshToken, d.claims.(exp := now + REFRESH_LIFETIME))))
  {
    match header
    case None => ErrorResponse(UNAUTHORIZED, false, NO_HEADER)
    case Some(h) =>
      var pieces := Text.Words(h);
      if |pieces| < 2 then Unhandled(INDEX_ERROR)
      else if SECRET_KEY !in env.config then ErrorResponse(INTERNAL_SERVER_ERROR, false, MISSING_KEY)
      else
        match env.jwt.decode(pieces[1], env.config[SECRET_KEY], now)
        case Expired => ErrorResponse(UNAUTHORIZED, false, TOKEN_EXPIRED)
        case Invalid(msg) => ErrorResponse(INTERNAL_SERVER_ERROR, false, msg)
        case Valid(c) =>
          var (token, refresh) := GenerateToken(env, UserOf(c), now);
          RefreshResponse(OK, token, refresh)
  }

  /** `signup`: store the account with its salted "hash"; the response
      carries the account with the password blanked and no salt, and no
      token. */
  function Signup(store: Store, auth: Auth, draws: seq<Digits.Digit>, now: int, reply: InsertReply)
    : (res: (Response<User>, Store))
    requires |draws| == 6
    ensures res.1.otps == store.otps
    ensures reply.id == "" ==> res == (ErrorResponse(reply.status, false, reply.errmsg), store)
    ensures reply.id != "" ==>
              && res.1.users.Keys == store.users.Keys + {auth.email}
              && (forall e :: e in store.users && e != auth.email ==> res.1.users[e] == store.users[e])
              && res.1.users[auth.email].createdAt == now && !res.1.users[auth.email].profileCompleted
    ensures reply.id != "" ==>
              var (salt, hash) := GenerateHash(auth.password, draws);
              res.1.users[auth.email].auth == auth.(password := hash, salt := Some(salt))
              && ComparePasswords(auth.password, res.1.users[auth.email].auth.password,
                                  SaltOrEmpty(res.1.users[auth.email].auth.salt))
              && res.0.AuthResponse? && res.0.status == OK
              && res.0.payload.auth == auth.(password := "", salt := None)
              && res.0.token.None? && res.0.refresh.None?
  {
    var (salt, hash) := GenerateHash(auth.password, draws);
    var user := User(auth.(password := hash, salt := Some(salt)), now, now, false);
    if reply.id == "" then (ErrorResponse(reply.status, false, reply.errmsg), store)
    else
      (AuthResponse(OK, user.(auth := user.auth.(password := "", salt := None)), None, None),
       store.(users := store.users[auth.email := user]))
  }

  /** `login`: find the account, compare the password with the stored salt
      (an absent salt counts as ""), sign a pair, and answer with the account
      whose password and salt are blanked. */
  function Login(env: Env, store: Store, auth: Auth, now: int): (r: Response<User>)
    ensures auth.email !in store.users ==> r == ErrorResponse(NOT_FOUND, false, "User not found")
    ensures auth.email in store.users ==>
              var u := store.users[auth.email];
              !ComparePasswords(auth.password, u.auth.password, SaltOrEmpty(u.auth.salt)) ==>
                r == ErrorResponse(BAD_REQUEST, false, "email/password wrong")
    ensures r.AuthResponse? <==>
              && auth.email in store.users
              && ComparePasswords(auth.password, store.users[auth.email].auth.password,
                                  SaltOrEmpty(store.users[auth.email].auth.salt))
              && r.Code() != INTERNAL_SERVER_ERROR
    ensures r.AuthResponse? ==> SECRET_KEY in env.config
    ensures SECRET_KEY in env.config && Jwt.Sound(env.jwt, ExpOf) ==> r.Code() != INTERNAL_SERVER_ERROR
    ensures r.AuthResponse? && Jwt.Sound(env.jwt, ExpOf) ==>
              && r.token.Some? && r.refresh.Some?
              && Carries(env, env.config[SECRET_KEY], r.token.value, ClaimsOf(store.users[auth.email], now + ACCESS_LIFETIME))
              && Carries(env, env.config[SECRET_KEY], r.refresh.value, ClaimsOf(store.users[auth.email], now + REFRESH_LIFETIME))
    ensures r.Code() == INTERNAL_SERVER_ERROR ==>
              r == ErrorResponse(INTERNAL_SERVER_ERROR, false, "Can't generate token. SECRET_KEY empty.")
    ensures r.AuthResponse? ==>
              && r.status == OK
              && r.payload == store.users[auth.email].(auth := store.users[auth.email].auth.(password := "", salt := Some("")))
              && r.token.Some? && r.refresh.Some? && r.token.value != ""
  {
    if auth.email !in store.users then ErrorResponse(NOT_FOUND, false, "User not found")
    else
      var user := store.users[auth.email];
      if !ComparePasswords(auth.password, user.auth.password, SaltOrEmpty(user.auth.salt)) then
        ErrorResponse(BAD_REQUEST, false, "email/password wrong")
      else
        var (token, refresh) := GenerateToken(env, user, now);
        if token == "" then
          ErrorResponse(INTERNAL_SERVER_ERROR, false, "Can't generate token. SECRET_KEY empty.")
        else
          AuthResponse(OK, user.(auth := user.auth.(password := "", salt := Some(""))), Some(token), Some(refresh))
  }
}

=== FILE: router_flows.dfy ===
/** Properties of the older route handlers: what the salted comparison
    accepts, that an account created by signup can log in, what a missing
    `SECRET_KEY` does to login, and that a login token can be refreshed. */
module RouterFlows {

  import opened Optional
  import opened Http
  import opened Router
  import Digits
  import Text
  import Jwt

  /** `comparePasswords` accepts exactly when the stored string ends with the
      salt and what comes before the salt is the given password. */
  lemma ComparePasswordsMeaning(given: string, actual: string, salt: string)
    ensures ComparePasswords(given, actual, salt) <==>
              && |actual| >= |salt|
              && actual[|actual| - |salt|..] == salt
              && actual[..|actual| - |salt|] == given
  {
    if |actual| >= |salt| && actual[|actual| - |salt|..] == salt && actual[..|actual| - |salt|] == given {
      assert actual == actual[..|actual| - |salt|] + actual[|actual| - |salt|..];
    }
    if ComparePasswords(given, actual, salt) {
      assert actual[..|given|] == given;
      assert actual[|given|..] == salt;
    }
  }

  /** Checking a password against the output of `generate_hash` accepts the
      hashed password and nothing else. */
  lemma HashThenCompare(password: string, given: string, draws: seq<Digits.Digit>)
    requires |draws| == 6
    ensures var (salt, hash) := GenerateHash(password, draws);
            ComparePasswords(given, hash, salt) <==> given == password
  {
    var (salt, hash) := GenerateHash(password, draws);
    ComparePasswordsMeaning(given, hash, salt);
  }

  /** The stored "hash" is never the plaintext itself: it is six characters
      longer. */
  lemma HashIsNotPlaintext(password: string, draws: seq<Digits.Digit>)
    requires |draws| == 6
    ensures GenerateHash(password, draws).1 != password
  {
    assert |GenerateHash(password, draws).1| == |password| + 6;
  }

  /** Every stored code is an unused six-digit string. */
  ghost predicate CodesFresh(store: Store) {
    forall o :: o in store.otps ==> |o.otp| == 6 && Digits.AllDigits(o.otp) && !o.used
  }

  /** forgot and signup keep every stored code an unused six-digit string,
      whatever the database replies. */
  lemma {:induction false} ForgotAndSignupKeepCodesFresh(store: Store, email: string, auth: Auth,
                                                         draws: seq<Digits.Digit>, now: int, reply: InsertReply)
    requires |draws| == 6
    requires CodesFresh(store)
    ensures CodesFresh(Forgot(store, email, draws, now, reply).1)
    ensures CodesFresh(Signup(store, auth, draws, now, reply).1)
  {
    var s1 := Forgot(store, email, draws, now, reply).1;
    if reply.id != "" {
      assert s1.otps == store.otps + [GenerateOtp(email, draws, now)];
    }
  }

  /** After a successful signup the same password logs in when the
      configuration has a `SECRET_KEY`, and any other password is refused. */
  lemma {:induction false} SignupThenLogin(env: Env, store: Store, auth: Auth, draws: seq<Digits.Digit>, now: int,
                                           reply: InsertReply, wrong: string)
    requires |draws| == 6
    requires reply.id != ""
    requires SECRET_KEY in env.config && Jwt.Sound(env.jwt, ExpOf)
    requires wrong != auth.password
    ensures Login(env, Signup(store, auth, draws, now, reply).1, auth, now).AuthResponse?
    ensures Login(env, Signup(store, auth, draws, now, reply).1, auth.(password := wrong), now)
            == ErrorResponse(BAD_REQUEST, false, "email/password wrong")
  {
    var s1 := Signup(store, auth, draws, now, reply).1;
    var (salt, hash) := GenerateHash(auth.password, draws);
    assert s1.users[auth.email].auth.password == hash;
    assert SaltOrEmpty(s1.users[auth.email].auth.salt) == salt;
    HashThenCompare(auth.password, auth.password, draws);
    HashThenCompare(auth.password, wrong, draws);
  }

  /** Without a `SECRET_KEY` entry the right password still cannot log in:
      token generation yields an empty pair and login answers 500. */
  lemma LoginWithoutSecretKey(env: Env, store: Store, auth: Auth, now: int)
    requires SECRET_KEY !in env.config
    requires auth.email in store.users
    requires ComparePasswords(auth.password, store.users[auth.email].auth.password,
                              SaltOrEmpty(store.users[auth.email].auth.salt))
    ensures Login(env, store, auth, now)
            == ErrorResponse(INTERNAL_SERVER_ERROR, false, "Can't generate token. SECRET_KEY empty.")
  {
  }

  /** The signed payload leaves out the password and the salt: accounts that
      differ only in those get the same token pair. */
  lemma TokensIgnoreSecrets(env: Env, user: User, password: string, salt: Option<string>, now: int)
    ensures GenerateToken(env, user.(auth := user.auth.(password := password, salt := salt)), now)
            == GenerateToken(env, user, now)
  {
  }

  /** An access token from login, presented as `Bearer <token>`, is
      re-issued until its one-day expiry and answered with 401 afterwards. */
  lemma {:induction false} RefreshOfLoginToken(env: Env, store: Store, auth: Auth, issued: int, now: int)
    requires Jwt.Sound(env.jwt, ExpOf)
    requires Login(env, store, auth, issued).AuthResponse?
    ensures var token := Login(env, store, auth, issued).token.value;
            var r := Refresh(env, Some("Bearer " + token), now);
            if now < issued + ACCESS_LIFETIME then
              && r.RefreshResponse? && r.status == OK
              && Carries(env, env.config[SECRET_KEY], r.accessToken,
                         ClaimsOf(store.users[auth.email], now + ACCESS_LIFETIME))
            else r == ErrorResponse(UNAUTHORIZED, false, TOKEN_EXPIRED)
  {
    var user := store.users[auth.email];
    var token := Login(env, store, auth, issued).token.value;
    assert token == GenerateToken(env, user, issued).0;
    assert Text.IsWord(token);
    assert Text.IsWord("Bearer");
    Text.SecondWord("Bearer", token);
    assert "Bearer " + token == "Bearer" + " " + token;
    var key := env.config[SECRET_KEY];
    var c := ClaimsOf(user, issued + ACCESS_LIFETIME);
    assert env.jwt.decode(token, key, now) == if now < c.exp then Jwt.Valid(c) else Jwt.Expired;
    assert UserOf(c) == UserOf(ClaimsOf(user, 0));
  }
}

=== FILE: tag_repository.dfy ===
/** The tag repository of the community service: a tag collection in the
    database and a cached copy of its `{_id, tag}` projection under one
    cache key. The cached value is held as the list it serialises; JSON
    stringify and parse are taken to be inverse. Every access to either
    store is recorded in `log`, so the order of reads and writes can be
    stated. */
module TagRepository {

  import opened Optional

  /** A tag document as the database returns it; `fields` stands for the
      rest of the document (timestamps, version key, ...). */
  datatype TagDoc = TagDoc(id: string, tag: string, fields: map<string, string>)

  /** The `{_id, tag}` projection kept in the cache and returned to clients. */
  datatype TagEntry = TagEntry(id: string, tag: string)

  datatype Access = DbRead | DbInsert(doc: TagDoc) | CacheRead | CacheWrite(value: seq<TagEntry>)

  /** The tag collection, the cached list (`None` when the key is absent),
      and the accesses made so far. */
  datatype State = State(db: seq<TagDoc>, cache: Option<seq<TagEntry>>, log: seq<Access>)

  /** An async operation's result: a value, or a thrown reason; either way
      with the stores afterwards. */
  datatype Outcome<T> = Done(value: T, state: State) | Threw(reason: string, state: State)

  /** What the database answers to an insert: the new document's id and
      other fields, or a rejection with the driver's error. */
  datatype Creation = Created(id: string, fields: map<string, string>) | Failed(reason: string)

  /** The cache agrees with the database: when present it is exactly the
      projection of every stored tag, in storage order. */
  ghost predicate Coherent(s: State) {
    s.cache.Some? ==> s.cache.value == Resultify(s.db)
  }

  /** `{ _id: record._id, tag: record.tag }`. */
  function Project(doc: TagDoc): TagEntry {
    TagEntry(doc.id, doc.tag)
  }

  /** `resultify`: each record cut down to `_id` and `tag`, order kept. */
  function Resultify(records: seq<TagDoc>): (entries: seq<TagEntry>)
    ensures |entries| == |records|
    ensures forall i :: 0 <= i < |records| ==>
              entries[i].id == records[i].id && entries[i].tag == records[i].tag
  {
    if |records| == 0 then [] else [Project(records[0])] + Resultify(records[1..])
  }

  /** Projecting a longer collection projects the added records at the end. */
  lemma ResultifyAppend(records: seq<TagDoc>, more: seq<TagDoc>)
    ensures Resultify(records + more) == Resultify(records) + Resultify(more)
  {
    var l := Resultify(records + more);
    var r := Resultify(records) + Resultify(more);
    forall i | 0 <= i < |l|
      ensures l[i] == r[i]
    {
      if i < |records| {
        assert (records + more)[i] == records[i];
      } else {
        assert (records + more)[i] == more[i - |records|];
      }
    }
  }

  /** `createTag`: insert a document for `tag`. A rejected insert throws the
      driver's error on; the `!tagRecord` test after `.toObject()` can never
      fire, so its message is never thrown. */
  function CreateTag(s: State, tag: string, created: Creation): (r: Outcome<TagDoc>)
    ensures r.Threw? <==> created.Failed?
    ensures r.Threw? ==> r == Threw(created.reason, s)
    ensures r.Done? ==>
              && r.value.tag == tag && r.value.id == created.id
              && r.state == s.(db := s.db + [r.value], log := s.log + [DbInsert(r.value)])
  {
    match created
    case Failed(reason) => Threw(reason, s)
    case Created(id, fields) =>
      var doc := TagDoc(id, tag, fields);
      Done(doc, s.(db := s.db + [doc], log := s.log + [DbInsert(doc)]))
  }

  /** `addTagInCache`: read the cached list (`[]` when the key is absent),
      append the entry, write the result back and return it. */
  function AddTagInCache(s: State, entry: TagEntry): (r: Outcome<seq<TagEntry>>)
    ensures r.Done?
    ensures r.value == s.cache.GetOr([]) + [entry]
    ensures r.state == s.(cache := Some(r.value), log := s.log + [CacheRead, CacheWrite(r.value)])
  {
    var prev := s.cache.GetOr([]);
    var updated := prev + [entry];
    Done(updated, s.(cache := Some(updated), log := s.log + [CacheRead, CacheWrite(updated)]))
  }

  /** `populateTagsInCache`: overwrite the cached list and return it. */
  function PopulateTagsInCache(s: State, tags: seq<TagEntry>): (r: Outcome<seq<TagEntry>>)
    ensures r.Done? && r.value == tags
    ensures r.state == s.(cache := Some(tags), log := s.log + [CacheWrite(tags)])
  {
    Done(tags, s.(cache := Some(tags), log := s.log + [CacheWrite(tags)]))
  }

  /** `getTagsFromDB`: every stored tag, projected. */
  function GetTagsFromDB(s: State): (r: Outcome<seq<TagEntry>>)
    ensures r.Done? && r.value == Resultify(s.db)
    ensures r.state == s.(log := s.log + [DbRead])
  {
    Done(Resultify(s.db), s.(log := s.log + [DbRead]))
  }

  /** `getTagsFromCache`: the cached list, or `None` when the key is absent. */
  function GetTagsFromCache(s: State): (r: Outcome<Option<seq<TagEntry>>>)
    ensures r.Done? && r.value == s.cache
    ensures r.state == s.(log := s.log + [CacheRead])
  {
    Done(s.cache, s.(log := s.log + [CacheRead]))
  }

  /** `reinitializeCache`: replace the cached list by the projection of the
      whole collection. */
  function ReinitializeCache(s: State): (r: Outcome<()>)
    ensures r.Done? && r.state.db == s.db
    ensures Coherent(r.state) && r.state.cache.Some?
    ensures r.state.log == s.log + [DbRead, CacheWrite(r.state.cache.value)]
  {
    var results := Resultify(s.db);
    Done((), s.(cache := Some(results), log := s.log + [DbRead, CacheWrite(results)]))
  }
}

=== FILE: tag_service.dfy ===
/** The tag service of the community service: create a tag in the database
    and then append it to the cache, and serve the tag list from the cache,
    filling the cache from the database on a miss. */
module TagService {

  import opened Optional
  import opened TagRepository

  /** `createTag`: insert the tag, then append its `{_id, tag}` to the cache,
      and return that entry. A failed insert throws its error before the
      cache is touched. */
  function CreateTag(s: State, tag: string, created: Creation): (r: Outcome<TagEntry>)
    ensures r.Threw? <==> created.Failed?
    ensures r.Threw? ==> r.reason == created.reason && r.state == s
    ensures r.Done? ==>
              && r.value == TagEntry(created.id, tag)
              && r.state.db == s.db + [TagDoc(created.id, tag, created.fields)]
              && r.state.cache == Some(s.cache.GetOr([]) + [r.value])
              && r.state.log == s.log + [DbInsert(TagDoc(created.id, tag, created.fields)), CacheRead,
                                         CacheWrite(s.cache.GetOr([]) + [r.value])]
  {
    match TagRepository.CreateTag(s, tag, created)
    case Threw(reason, s1) => Threw(reason, s1)
    case Done(record, s1) =>
      var entry := TagEntry(record.id, record.tag);
      var added := AddTagInCache(s1, entry);
      Done(entry, added.state)
  }

  /** `getAllTags`: a present cache is served as is (its serialised text is
      never shorter than `[]`, so even a cached empty list is a hit) without
      touching the database; an absent one is filled from the database and
      the database's tags are returned. */
  function GetAllTags(s: State): (r: Outcome<seq<TagEntry>>)
    ensures r.Done?
    ensures s.cache.Some? ==> r.value == s.cache.value && r.state == s.(log := s.log + [CacheRead])
    ensures s.cache.None? ==>
              && r.value == Resultify(s.db)
              && r.state == s.(cache := Some(r.value), log := s.log + [CacheRead, DbRead, CacheWrite(r.value)])
  {
    var cached := GetTagsFromCache(s);
    match cached.value
    case Some(entries) => Done(entries, cached.state)
    case None =>
      var records := GetTagsFromDB(cached.state);
      var populated := PopulateTagsInCache(records.state, records.value);
      Done(records.value, populated.state)
  }

  /** From a coherent state the tag list is the database's, whether it comes
      from the cache or not, and the state stays coherent. */
  lemma ReadThrough(s: State)
    requires Coherent(s)
    ensures GetAllTags(s).value == Resultify(s.db)
    ensures Coherent(GetAllTags(s).state) && GetAllTags(s).state.db == s.db
  {
  }

  /** A cache hit never reads the database. */
  lemma HitSkipsDatabase(s: State)
    requires s.cache.Some?
    ensures DbRead !in GetAllTags(s).state.log[|s.log|..]
  {
    assert GetAllTags(s).state.log[|s.log|..] == [CacheRead];
  }

  /** Creating a tag keeps the cache coherent when the cache is present (or
      the collection was empty): the new entry lands at the end of both. */
  lemma CreateTagKeepsCoherence(s: State, tag: string, created: Creation)
    requires Coherent(s)
    requires s.cache.Some? || s.db == []
    ensures Coherent(CreateTag(s, tag, created).state)
  {
    if created.Created? {
      var doc := TagDoc(created.id, tag, created.fields);
      ResultifyAppend(s.db, [doc]);
      assert Resultify([doc]) == [TagEntry(created.id, tag)];
    }
  }

  /** With the cache key absent, creating a tag writes a cache holding only
      the new entry, and the next read serves that list instead of the
      database's: existing tags go missing until the cache is reinitialised. */
  lemma ColdCacheHidesTags(s: State, tag: string, id: string, fields: map<string, string>)
    requires s.cache.None? && |s.db| > 0
    ensures var after := CreateTag(s, tag, Created(id, fields)).state;
            && GetAllTags(after).value == [TagEntry(id, tag)]
            && GetAllTags(after).value != Resultify(after.db)
  {
    var after := CreateTag(s, tag, Created(id, fields)).state;
    assert |Resultify(after.db)| == |s.db| + 1;
  }

  /** After `reinitializeCache` every read serves the database's tags. */
  lemma ReinitializeThenRead(s: State)
    ensures GetAllTags(ReinitializeCache(s).state).value == Resultify(s.db)
  {
    ReadThrough(ReinitializeCache(s).state);
  }
}

=== FILE: text.dfy ===
/** The two ways the services cut an `Authorization` header into pieces:
    Python's `str.split()` (runs of whitespace, empty pieces dropped) and
    JavaScript's `String.prototype.split(' ')` (every single space, empty
    pieces kept). */
module Text {

  /** Python's ASCII whitespace: space, tab, line feed, vertical tab, form
      feed and carriage return. */
  predicate IsSpace(c: char) {
    c == ' ' || '\t' <= c <= '\r'
  }

  /** A non-empty piece free of whitespace: what `str.split()` yields. */
  predicate IsWord(w: string) {
    |w| > 0 && forall i :: 0 <= i < |w| ==> !IsSpace(w[i])
  }

  /** Length of the whitespace run `s` starts with. */
  function SpaceRun(s: string): (n: nat)
    ensures n <= |s|
    ensures forall i :: 0 <= i < n ==> IsSpace(s[i])
    ensures n < |s| ==> !IsSpace(s[n])
  {
    if |s| == 0 || !IsSpace(s[0]) then 0 else 1 + SpaceRun(s[1..])
  }

  /** Length of the non-whitespace run `s` starts with. */
  function WordRun(s: string): (n: nat)
    ensures n <= |s|
    ensures forall i :: 0 <= i < n ==> !IsSpace(s[i])
    ensures n < |s| ==> IsSpace(s[n])
  {
    if |s| == 0 || IsSpace(s[0]) then 0 else 1 + WordRun(s[1..])
  }

  /** `s.split()` in Python: the maximal whitespace-free pieces, in order. */
  function Words(s: string): (ws: seq<string>)
    ensures forall i :: 0 <= i < |ws| ==> IsWord(ws[i])
    decreases |s|
  {
    var t := s[SpaceRun(s)..];
    if |t| == 0 then []
    else
      var n := WordRun(t);
      [t[..n]] + Words(t[n..])
  }

  /** Words glued back with one space between neighbours. */
  function Unwords(ws: seq<string>): string
  {
    if |ws| == 0 then ""
    else if |ws| == 1 then ws[0]
    else ws[0] + " " + Unwords(ws[1..])
  }

  lemma {:induction false} SpaceRunOfSpaced(u: string)
    ensures SpaceRun(" " + u) == 1 + SpaceRun(u)
  {
    assert (" " + u)[1..] == u;
  }

  /** Leading whitespace does not change the words. */
  lemma WordsOfSpaced(u: string)
    ensures Words(" " + u) == Words(u)
  {
    SpaceRunOfSpaced(u);
    assert (" " + u)[SpaceRun(" " + u)..] == u[SpaceRun(u)..];
  }

  lemma {:induction false} WordRunOfWord(w: string, rest: string)
    requires forall i :: 0 <= i < |w| ==> !IsSpace(w[i])
    requires |rest| == 0 || IsSpace(rest[0])
    ensures WordRun(w + rest) == |w|
    decreases |w|
  {
    if |w| > 0 {
      assert (w + rest)[1..] == w[1..] + rest;
      WordRunOfWord(w[1..], rest);
    } else {
      assert w + rest == rest;
    }
  }

  /** `str.split()` undoes gluing whitespace-free words with single spaces. */
  lemma {:induction false} WordsOfUnwords(ws: seq<string>)
    requires forall i :: 0 <= i < |ws| ==> IsWord(ws[i])
    ensures Words(Unwords(ws)) == ws
  {
    if |ws| == 0 {
    } else {
      var w := ws[0];
      var rest := if |ws| == 1 then "" else " " + Unwords(ws[1..]);
      assert Unwords(ws) == w + rest;
      WordRunOfWord(w, rest);
      assert SpaceRun(w + rest) == 0;
      var t := w + rest;
      assert t[..|w|] == w;
      assert t[|w|..] == rest;
      if |ws| == 1 {
        assert Words(rest) == [];
      } else {
        WordsOfSpaced(Unwords(ws[1..]));
        WordsOfUnwords(ws[1..]);
      }
      assert Words(t) == [w] + Words(rest);
    }
  }

  /** The second piece of `scheme + " " + token`, as `split()[1]` reads it. */
  lemma SecondWord(scheme: string, token: string)
    requires IsWord(scheme) && IsWord(token)
    ensures |Words(scheme + " " + token)| == 2
    ensures Words(scheme + " " + token)[0] == scheme
    ensures Words(scheme + " " + token)[1] == token
  {
    assert Unwords([scheme, token]) == scheme + " " + token;
    WordsOfUnwords([scheme, token]);
  }

  /** `s.split(sep)` in JavaScript for a one-character separator: the pieces
      between consecutive separators, empty ones included. */
  function Split(s: string, sep: char): (parts: seq<string>)
    ensures |parts| >= 1
    ensures forall i :: 0 <= i < |parts| ==> sep !in parts[i]
    decreases |s|
  {
    if |s| == 0 then [""]
    else
      var rest := Split(s[1..], sep);
      if s[0] == sep then [""] + rest
      else [[s[0]] + rest[0]] + rest[1..]
  }

  /** `parts.join(sep)`. */
  function JoinWith(parts: seq<string>, sep: char): string
    requires |parts| >= 1
  {
    if |parts| == 1 then parts[0] else parts[0] + [sep] + JoinWith(parts[1..], sep)
  }

  /** Joining the pieces with the separator gives the string back. */
  lemma {:induction false} JoinOfSplit(s: string, sep: char)
    ensures JoinWith(Split(s, sep), sep) == s
    decreases |s|
  {
    if |s| > 0 {
      var rest := Split(s[1..], sep);
      JoinOfSplit(s[1..], sep);
      if s[0] != sep && |rest| > 1 {
        assert JoinWith(rest, sep) == rest[0] + [sep] + JoinWith(rest[1..], sep);
        assert ([[s[0]] + rest[0]] + rest[1..])[1..] == rest[1..];
      }
    }
  }

  lemma {:induction false} SplitOfPiece(w: string, sep: char, u: string)
    requires sep !in w
    ensures Split(w + [sep] + u, sep) == [w] + Split(u, sep)
    decreases |w|
  {
    if |w| == 0 {
      assert w + [sep] + u == [sep] + u;
      assert ([sep] + u)[1..] == u;
    } else {
      assert (w + [sep] + u)[1..] == w[1..] + [sep] + u;
      SplitOfPiece(w[1..], sep, u);
      assert [w[0]] + w[1..] == w;
    }
  }

  lemma {:induction false} SplitOfLast(w: string, sep: char)
    requires sep !in w
    ensures Split(w, sep) == [w]
    decreases |w|
  {
    if |w| > 0 {
      SplitOfLast(w[1..], sep);
      assert [w[0]] + w[1..] == w;
    }
  }

  /** Splitting undoes joining pieces that do not contain the separator. */
  lemma {:induction false} SplitOfJoin(parts: seq<string>, sep: char)
    requires |parts| >= 1
    requires forall i :: 0 <= i < |parts| ==> sep !in parts[i]
    ensures Split(JoinWith(parts, sep), sep) == parts
  {
    if |parts| == 1 {
      SplitOfLast(parts[0], sep);
    } else {
      SplitOfJoin(parts[1..], sep);
      SplitOfPiece(parts[0], sep, JoinWith(parts[1..], sep));
      assert [parts[0]] + parts[1..] == parts;
    }
  }
}
